=== FILE: README.md ===
# Artist search: store slice, lookup saga and view decisions

A model of the state logic behind the artist-search box of `ArtistContainer`:

- `reducer.dfy` (module `Reducer`): the slice `{artistName, artistsData, artistsError}`, its
  initial state, the four actions (`requestGetArtists`, `successGetArtists`,
  `failureGetArtists`, `clearArtists`, plus any other action type) and
  `artistContainerReducer`.
- `store.dfy` (module `Store`): the slice under a sequence of dispatches. Each field
  is determined by the last action that writes it, and a clear erases all history.
- `saga.dfy` (module `Saga`): `getArtists` as a pure map from the request and the
  lookup service's answer `{ok, data}` to the one action it puts. It also holds a
  small take-latest runtime in which only the newest request's reply reaches the store.
- `container.dfy` (module `Container`): the view's non-rendering decisions. These are
  the `loading` flag moves made by the two effects and by `handleOnChange`, the
  actions they dispatch, the error card's message and colour, and when the list card
  and the error card are shown.
- `flow.dfy` (module `Flow`): whole searches, from typing through the reply and the
  store-update effect to what is on screen.
- `js.dfy` (module `Js`): the JavaScript values involved. It covers `null` versus
  `undefined`, the truthiness of strings and arrays, lodash `get` with its default
  (used only for an `undefined` read) and `isEmpty` on strings.

The lookup service (`getArtistsApi`) is a parameter. In `GetArtists` it is a function
from the name to a response. In the runtime and the flows it is the response itself.

Behaviour of the code worth knowing:

- A failure sets `artistsData` to `null`, not to an empty list.
- A request does not clear an earlier error, and neither does a success.
  `Flow.StaleErrorOutlivesSuccess` shows the visible result.
- A whitespace-only keyword is not empty for `isEmpty`, so it is looked up rather than cleared.
- A clear does not cancel a pending lookup, because take-latest cancels only on a new request.
  The late reply then fills the cleared slice with data but no name (`Saga.ClearDoesNotCancel`).
  If the view is still loading, the store-update effect then sees results with no name behind
  them, ends the load and dispatches a second clear (`Flow.LateReplyIsClearedAgain`).
- The store-update effect runs only when `artistsData` or `artistsError` changes identity.
  An ok reply of `null` onto a `null` payload changes neither, so a load started by typing
  never ends and the skeleton stays (`Flow.NullReplyKeepsSkeleton`). The `{}` default for an
  undefined payload is a fresh object on every render, so it re-runs the effect every time.
- `getArtists` has no exception handler, so a transport fault never becomes a failure action.

## Model

| member | source | states |
|---|---|---|
| `Reducer.StoredError` | app/containers/ArtistContainer/reducer.js:31 | the stored error is the payload's `message`. The generic `something_went_wrong` is used only when the payload is not an object or has no `message` at all. An explicit `null` message is stored as `null` |
| `Reducer.Reduce` | app/containers/ArtistContainer/reducer.js:19-35 | a request changes only the name. A success changes only the data and keeps any earlier error. A failure nulls the data, records the error and keeps the name. A clear gives the initial state. Any other action changes nothing. An undefined state counts as the initial one |
| `Reducer.InitialStateFields` | app/containers/ArtistContainer/reducer.js:16 | the initial slice has no name, the empty list and no error |
| `Reducer.UndefinedStateIsInitial` | app/containers/ArtistContainer/reducer.js:16-19 | every action applied to an undefined state gives what it gives on the initial state |
| `Reducer.ClearIsIdempotentReset` | app/containers/ArtistContainer/reducer.js:25-26 | clearing gives the initial state from any state, and clearing twice equals clearing once |
| `Reducer.FailureWithoutMessage` | app/containers/ArtistContainer/reducer.js:30-33 | a failure whose payload is absent or lacks `message` stores `something_went_wrong` and nulls the data |
| `Reducer.RequestThenSuccess` | app/containers/ArtistContainer/reducer.js:22-29 | after a request for T and a success with D, the slice holds name T and data D, and the error it had before |
| `Store.DispatchAll` | app/containers/ArtistContainer/reducer.js:19-35 | along any sequence of dispatches, a field that no action in the sequence writes keeps its starting value |
| `Store.DispatchAppend` | app/containers/ArtistContainer/reducer.js:19-35 | dispatching two batches one after the other equals dispatching their concatenation |
| `Store.ClearDiscardsHistory` | app/containers/ArtistContainer/reducer.js:25-26 | whatever came before a clear, the state after it depends only on the actions after it |
| `Store.LastNameWriter` | app/containers/ArtistContainer/reducer.js:22-26 | the name is the one the last request set, or null when a clear came last |
| `Store.LastDataWriter` | app/containers/ArtistContainer/reducer.js:25-33 | the data comes from the last data-writing action: the success payload, null after a failure, or `[]` after a clear |
| `Store.LastErrorWriter` | app/containers/ArtistContainer/reducer.js:22-33 | the error comes from the last failure or clear. Requests and successes never change it |
| `Saga.GetArtists` | app/containers/ArtistContainer/saga.js:8-16 | the lookup is called with the requested name. Exactly one action is put: a success carrying the payload unchanged when `ok` is true, otherwise a failure carrying it unchanged |
| `Saga.OnlyOkDecides` | app/containers/ArtistContainer/saga.js:10-15 | the branch depends only on `ok`: two answers that agree on `ok` put the same kind of action (success or failure), whatever their payloads |
| `Saga.OkReplyStoresData` | app/containers/ArtistContainer/saga.js:9-12 | a request followed by an ok reply leaves the requested name, the reply's payload as data, and the earlier error |
| `Saga.FailedReplyStoresError` | app/containers/ArtistContainer/saga.js:13-14 | a request followed by a failed reply leaves the requested name and null data. The error holds the payload's message, or `something_went_wrong` when the message is undefined |
| `Saga.Step` | app/containers/ArtistContainer/saga.js:19 | each request starts a new task and so cancels the running one. A reply from a cancelled or finished task changes nothing. The current task's reply is passed through the reducer. Task ids stay below the next id, a request advances the next id by one and no other event changes it, so no id is handed out twice |
| `Saga.LatestWins` | app/containers/ArtistContainer/saga.js:19 | for any runtime and any two names requested one after the other, the reply to the first is discarded whether it arrives before or after the reply to the second, and the store ends as if only the second request had been answered |
| `Saga.UnissuedReplyIgnored` | app/containers/ArtistContainer/saga.js:19 | when every started task has an id below the next id, a reply carrying an id that was never handed out changes nothing |
| `Saga.ClearDoesNotCancel` | app/containers/ArtistContainer/saga.js:19 | a clear after a request leaves that lookup current. Its ok reply then stores its payload in the cleared slice, which keeps no name |
| `Saga.CancelledStaysCancelled` | app/containers/ArtistContainer/saga.js:19 | after any sequence of events, a task that was handed out and is no longer current never becomes current again, so its reply changes nothing whenever it arrives |
| `Js.NoResultsIsNoItems` | app/containers/ArtistContainer/index.js:83-86 | the view's two tests for "no results" agree: `!results?.length` holds exactly when `get(artistsData, 'results', [])` is empty |
| `Container.PropsOf` | app/containers/ArtistContainer/index.js:44 | an undefined `artistsData` reaches the view as `{}`. Every other field is passed unchanged |
| `Container.DefaultPayloadIsUnobservable` | app/containers/ArtistContainer/index.js:44 | the view renders and acts the same on `{}` as on `undefined` |
| `Container.StoreUpdateEffect` | app/containers/ArtistContainer/index.js:53-61 | nothing happens unless the view is loading and a results list (even an empty one) or an error is present. Then loading ends, and a clear is dispatched exactly when there is no name |
| `Container.StoreUpdateSettles` | app/containers/ArtistContainer/index.js:53-61 | once the effect has ended a load, running it again does nothing |
| `Container.MountEffect` | app/containers/ArtistContainer/index.js:63-68 | a request for the remembered name is dispatched, and loading starts, exactly when the name is non-empty and there are no cached results |
| `Container.FirstRenderIsMountEffect` | app/containers/ArtistContainer/index.js:51-68 | on the first render loading starts false, so the store-update effect does nothing and only the mount effect acts |
| `Container.HandleOnChange` | app/containers/ArtistContainer/index.js:70-79 | a non-empty keyword dispatches only its request. Loading becomes true unless an error message is flagged, and otherwise stays as it was. An empty keyword dispatches only a clear and leaves loading alone |
| `Container.ErrorMessage` | app/containers/ArtistContainer/index.js:112-121 | the message is the stored error if any, else `no_results_found` when the name is set and there are no results, else `artist_search_default`. It is falsy only for a stored null or empty error |
| `Container.ErrorCardOf` | app/containers/ArtistContainer/index.js:122-129 | the error card shows exactly when the view is not loading, the message is truthy and there are no results. It is red exactly when an error is stored |
| `Container.ListCardOf` | app/containers/ArtistContainer/index.js:82-110 | the list card shows exactly when there are items or the view is loading. It carries the skeleton flag, the name when set, the count unless it is 0, and the items themselves |
| `Container.Render` | app/containers/ArtistContainer/index.js:82-131 | the list card and the error card are never both shown. Neither is shown exactly when the view is not loading, there are no results, and a failure stored a null or empty message |
| `Flow.TypingShowsSkeleton` | app/containers/ArtistContainer/index.js:70-79 | typing a keyword with no flagged error records the name and starts loading, and only the skeleton list card is shown. The exception is an undefined payload next to a stored unflagged error: the fresh `{}` re-runs the store-update effect, which ends the load at once |
| `Flow.SearchShowsHits` | app/containers/ArtistContainer/index.js:53-110 | a search answered with hits ends loading and clears nothing. The list card shows the name, the count and exactly those hits. No error card is shown, even when an earlier error is still stored |
| `Flow.EmptyAnswerShowsNoResults` | app/containers/ArtistContainer/index.js:112-129 | a search answered with an empty list, with no earlier error, shows only the neutral `no_results_found` card |
| `Flow.FailedSearchShowsAlert` | app/containers/ArtistContainer/index.js:112-129 | a failed search ends loading and shows only the red card with the payload's message or `something_went_wrong`, replacing any earlier error |
| `Flow.SilentFailure` | app/containers/ArtistContainer/index.js:122-125 | a failure whose message is null or empty stores that message as the error, and then neither card is shown |
| `Flow.StaleErrorOutlivesSuccess` | app/containers/ArtistContainer/index.js:73-75 | with an error stored, typing does not start loading. A later empty but successful answer still shows the old error in red |
| `Flow.NullReplyKeepsSkeleton` | app/containers/ArtistContainer/index.js:53-61 | when the payload is already `null` and no error is flagged, a search answered ok with `null` leaves the effect's dependencies unchanged. Loading never ends and the skeleton list card stays |
| `Flow.LateReplyIsClearedAgain` | app/containers/ArtistContainer/index.js:53-61 | typing, then emptying the box, then the late ok reply with results: the reply reaches a slice with no name. If the view was loading, the effect ends the load and clears again, back to the initial state. Otherwise the reply stays on screen |
| `Flow.ClearingTheBox` | app/containers/ArtistContainer/index.js:76-78 | emptying the box starts no lookup, resets the slice to its initial state and leaves loading alone |

## Left out

- Markup, styling and the antd `Card`/`Skeleton`/`Search` widgets are not modelled. Only the decisions behind them are.
- Translation (`intl.formatMessage`, `T`) is not modelled. Message ids are plain strings.
- The 200 ms debounce is not modelled. It is timing behaviour, so `handleOnChange` is taken as called directly.
- `getArtistsApi` and the HTTP client are not part of this model. Their answer is an opaque `{ok, data}`, and a transport exception is not modelled because nothing in `getArtists` catches it.
- Saga.Step: redux-saga's scheduler is reduced to task ids and a single running task. Cancellation is modelled as discarding the stale reply, and when an action is seen relative to the reducer is not modelled.
- The selectors and `useInjectSaga`, `connect`/`compose`, PropTypes and `mapDispatchToProps` are not part of this model. Each prop is taken to be the slice field of the same name.
- A `results` property that is explicitly `null` is not modelled, because `items.length` would throw. Neither is a `resultCount` that is `null`, or a `message` that is not a string.
- React's render scheduling is reduced to one render per store change. Identity is not tracked. `Flow.DepsChanged` decides it from how each value arose: a reply's object, a failure's error object and the `{}` default are fresh, and values the reducer leaves alone keep their identity. It is stated for the three search actions only.

=== FILE: container.dfy ===
/**
  The decisions the `ArtistContainer` view makes, without its markup: how its
  local `loading` flag moves, which actions it dispatches, which message the
  error card picks, and when each card is shown.
 */
module Container {
  import opened Js
  import opened Reducer

  /** The props the view receives from the store slice. */
  datatype Props = Props(artistsData: Data, artistsError: Option<ErrorObj>, artistName: Option<string>)

  /** The slice as props: an undefined `artistsData` takes the `{}` default. */
  function PropsOf(s: State): (p: Props)
    ensures p.artistsData != UndefinedData
    ensures s.artistsData.UndefinedData? ==> p.artistsData == EmptyObject
    ensures s.artistsData != UndefinedData ==> p.artistsData == s.artistsData
    ensures p.artistsError == s.artistsError && p.artistName == s.artistName
  {
    var data := if s.artistsData.UndefinedData? then EmptyObject else s.artistsData;
    Props(data, s.artistsError, s.artistName)
  }

  /** What a handler or effect does: the actions it dispatches and the new `loading`. */
  datatype Effect = Effect(dispatched: seq<Action>, loading: bool)

  /** `get(artistsData, 'results', null) || artistsError`: any results list, even `[]`, or any error object. */
  predicate Loaded(p: Props)
  {
    ResultsOrNull(p.artistsData).Some? || p.artistsError.Some?
  }

  /** `artistsError?.error`, taken as a condition. */
  predicate ErrorFlagged(p: Props)
  {
    p.artistsError.Some? && Truthy(p.artistsError.value.error)
  }

  /**
    The effect run when `artistsData` or `artistsError` changes: a pending
    load ends once results or an error arrive, and a store update with no
    name behind it is cleared.
   */
  function StoreUpdateEffect(p: Props, loading: bool): (e: Effect)
    ensures !(loading && Loaded(p)) ==> e == Effect([], loading)
    ensures loading && Loaded(p) ==> !e.loading
    ensures e.dispatched == [] || e.dispatched == [ClearArtists]
    ensures e.dispatched == [ClearArtists] <==> loading && Loaded(p) && !Truthy(p.artistName)
  {
    if loading && Loaded(p) then
      Effect(if !Truthy(p.artistName) then [ClearArtists] else [], false)
    else Effect([], loading)
  }

  /**
    The mount effect: a remembered name with no cached results is looked up
    again, and the view starts loading.
   */
  function MountEffect(p: Props, loading: bool): (e: Effect)
    ensures e.dispatched != [] <==> Truthy(p.artistName) && NoResults(p.artistsData)
    ensures e.dispatched != [] ==> e.dispatched == [RequestGetArtists(p.artistName.value)] && e.loading
    ensures e.dispatched == [] ==> e.loading == loading
  {
    if Truthy(p.artistName) && NoResults(p.artistsData) then
      Effect([RequestGetArtists(p.artistName.value)], true)
    else Effect([], loading)
  }

  /** The first render: both effects run in order, with `loading` starting false. */
  function FirstRenderEffects(p: Props): Effect
  {
    var first := StoreUpdateEffect(p, false);
    var second := MountEffect(p, first.loading);
    Effect(first.dispatched + second.dispatched, second.loading)
  }

  /** On mount the store-update effect does nothing, so only the mount effect acts. */
  lemma FirstRenderIsMountEffect(p: Props)
    ensures FirstRenderEffects(p) == MountEffect(p, false)
    ensures FirstRenderEffects(p).loading <==> Truthy(p.artistName) && NoResults(p.artistsData)
  {
  }

  /**
    `handleOnChange(keyword)`: a non-empty keyword is requested (and starts
    loading unless an error is flagged); an empty one clears the slice.
   */
  function HandleOnChange(keyword: string, p: Props, loading: bool): (e: Effect)
    ensures !IsEmpty(keyword) ==> e.dispatched == [RequestGetArtists(keyword)]
    ensures IsEmpty(keyword) ==> e.dispatched == [ClearArtists] && e.loading == loading
    ensures ClearArtists in e.dispatched <==> IsEmpty(keyword)
    ensures e.loading != loading ==> !loading && !IsEmpty(keyword) && !ErrorFlagged(p)
    ensures !IsEmpty(keyword) && !ErrorFlagged(p) ==> e.loading
  {
    if !IsEmpty(keyword) then
      Effect([RequestGetArtists(keyword)], if !ErrorFlagged(p) then true else loading)
    else Effect([ClearArtists], loading)
  }

  const NoResultsFound: string := "no_results_found"
  const SearchDefault: string := "artist_search_default"

  /** The message id the error card would show. */
  function ErrorMessage(p: Props): (m: Option<string>)
    ensures p.artistsError.Some? ==> m == p.artistsError.value.error
    ensures p.artistsError.None? && NoResults(p.artistsData) && Truthy(p.artistName) ==> m == Some(NoResultsFound)
    ensures p.artistsError.None? && !(NoResults(p.artistsData) && Truthy(p.artistName)) ==> m == Some(SearchDefault)
    // only a stored error whose message is null or empty leaves the card without a message
    ensures !Truthy(m) <==> p.artistsError.Some? && !Truthy(p.artistsError.value.error)
  {
    if p.artistsError.Some? then p.artistsError.value.error
    else if NoResults(p.artistsData) && Truthy(p.artistName) then Some(NoResultsFound)
    else Some(SearchDefault)
  }

  /** The error card: its message id, and whether it is an alert (red) rather than neutral (grey). */
  datatype ErrorCard = ErrorCard(messageId: string, alert: bool)

  /** The error card, if shown. */
  function ErrorCardOf(p: Props, loading: bool): (c: Option<ErrorCard>)
    ensures c.Some? <==> !loading && Truthy(ErrorMessage(p)) && NoResults(p.artistsData)
    ensures c.Some? ==> Some(c.value.messageId) == ErrorMessage(p) && c.value.messageId != ""
    ensures c.Some? ==> (c.value.alert <==> p.artistsError.Some?)
  {
    var m := ErrorMessage(p);
    if !loading && Truthy(m) && NoResults(p.artistsData) then
      Some(ErrorCard(m.value, p.artistsError.Some?))
    else None
  }

  /**
    The list card: skeleton while loading, the searched name if any, the
    matching count unless it is 0, and the hits.
   */
  datatype ListCard = ListCard(skeleton: bool, query: Option<string>, matching: Option<int>, items: seq<Hit>)

  /** The list card, if shown. */
  function ListCardOf(p: Props, loading: bool): (c: Option<ListCard>)
    ensures c.Some? <==> |ResultsOr(p.artistsData, [])| != 0 || loading
    ensures c.Some? ==> c.value.items == ResultsOr(p.artistsData, []) && c.value.skeleton == loading
    ensures c.Some? ==> (c.value.query.Some? <==> Truthy(p.artistName))
    ensures c.Some? && c.value.query.Some? ==> c.value.query == p.artistName
    ensures c.Some? ==> (c.value.matching.Some? <==> ResultCountOr(p.artistsData, 0) != 0)
    ensures c.Some? && c.value.matching.Some? ==> c.value.matching.value == ResultCountOr(p.artistsData, 0)
  {
    var items := ResultsOr(p.artistsData, []);
    var totalCount := ResultCountOr(p.artistsData, 0);
    if |items| != 0 || loading then
      Some(ListCard(
        loading,
        if Truthy(p.artistName) then p.artistName else None,
        if totalCount != 0 then Some(totalCount) else None,
        items))
    else None
  }

  /** The two cards below the search box. */
  datatype Screen = Screen(list: Option<ListCard>, error: Option<ErrorCard>)

  /** Both cards; never both at once. */
  function Render(p: Props, loading: bool): (v: Screen)
    ensures !(v.list.Some? && v.error.Some?)
    ensures v.list.None? && v.error.None? <==>
              !loading && NoResults(p.artistsData) && p.artistsError.Some? && !Truthy(p.artistsError.value.error)
  {
    Screen(ListCardOf(p, loading), ErrorCardOf(p, loading))
  }

  /** The `{}` default for an undefined payload cannot be told apart from it by anything the view does. */
  lemma DefaultPayloadIsUnobservable(p: Props, loading: bool)
    requires p.artistsData == EmptyObject
    ensures var q := p.(artistsData := UndefinedData);
            && Render(p, loading) == Render(q, loading)
            && StoreUpdateEffect(p, loading) == StoreUpdateEffect(q, loading)
            && MountEffect(p, loading) == MountEffect(q, loading)
  {
  }

  /** Once the store-update effect has ended a load, running it again does nothing. */
  lemma StoreUpdateSettles(p: Props, loading: bool)
    ensures StoreUpdateEffect(p, StoreUpdateEffect(p, loading).loading) == Effect([], StoreUpdateEffect(p, loading).loading)
  {
  }
}

=== FILE: flow.dfy ===
/**
  One search as the user lives it: the view's handler, the reducer, the
  saga's reply, the reducer again, the store-update effect, and the screen.
 */
module Flow {
  import opened Js
  import opened Reducer
  import opened Saga
  import opened Container

  /** The view state: the store slice and the view's own `loading` flag. */
  datatype ViewState = ViewState(store: State, loading: bool)

  /** Dispatches every action of an effect, in order, and adopts its `loading`. */
  function Apply(v: ViewState, e: Effect): ViewState
    decreases |e.dispatched|
  {
    if e.dispatched == [] then v.(loading := e.loading)
    else
      var last := e.dispatched[|e.dispatched| - 1];
      var rest := Apply(v, Effect(e.dispatched[..|e.dispatched| - 1], e.loading));
      rest.(store := Reduce(Some(rest.store), last))
  }

  /** Applying an effect that dispatches at most one action. */
  lemma ApplyShort(v: ViewState, e: Effect)
    requires |e.dispatched| <= 1
    ensures e.dispatched == [] ==> Apply(v, e) == v.(loading := e.loading)
    ensures e.dispatched != [] ==> Apply(v, e) == ViewState(Reduce(Some(v.store), e.dispatched[0]), e.loading)
  {
    if e.dispatched != [] {
      assert e.dispatched[..0] == [];
    }
  }

  /**
    Whether the store-update effect's dependencies `[artistsData, artistsError]`
    differ, by identity, between the render of `before` and the render of
    `after`, which the search action `cause` produced. The `{}` that replaces an
    undefined payload is a fresh object on every render; a reply's object or
    array payload and a failure's error object are fresh; whatever the reducer
    leaves untouched keeps its identity, and `null` equals `null`.
   */
  predicate DepsChanged(before: State, after: State, cause: Action)
    requires cause.RequestGetArtists? || cause.SuccessGetArtists? || cause.FailureGetArtists?
  {
    || after.artistsData.UndefinedData?
    || cause.FailureGetArtists?
    || (cause.SuccessGetArtists? && (cause.data.Object? || cause.data.EmptyArray? || cause.data != before.artistsData))
  }

  /**
    The render after the store went from `before` to `after` by `cause`, with the
    view's `loading` at `loading`: the store-update effect runs only when its
    dependencies changed, and a clear it dispatches resets the slice.
   */
  function Rerender(before: State, after: State, cause: Action, loading: bool): ViewState
    requires cause.RequestGetArtists? || cause.SuccessGetArtists? || cause.FailureGetArtists?
  {
    if DepsChanged(before, after, cause) then
      var e := StoreUpdateEffect(PropsOf(after), loading);
      ViewState(if e.dispatched == [] then after else Reduce(Some(after), ClearArtists), e.loading)
    else ViewState(after, loading)
  }

  /** The user types a non-empty `keyword`: the request is dispatched and the view renders again. */
  function Type(v: ViewState, keyword: string): ViewState
    requires !IsEmpty(keyword)
  {
    var handled := HandleOnChange(keyword, PropsOf(v.store), v.loading);
    var request := RequestGetArtists(keyword);
    Rerender(v.store, Reduce(Some(v.store), request), request, handled.loading)
  }

  /** The user types `keyword`, the lookup answers `response`, and the view renders the store update. */
  function Search(v: ViewState, keyword: string, response: Response): ViewState
    requires !IsEmpty(keyword)
  {
    var typed := Type(v, keyword);
    var put := GetArtists(RequestGetArtists(keyword), _ => response).put;
    Rerender(typed.store, Reduce(Some(typed.store), put), put, typed.loading)
  }

  /**
    Typing a keyword with no flagged error records the name and starts
    loading, so the list card shows a skeleton. The one exception: an
    undefined payload next to a stored (unflagged) error, where the fresh `{}`
    makes the store-update effect run on this render and end the load at once.
   */
  lemma TypingShowsSkeleton(v: ViewState, keyword: string)
    requires !IsEmpty(keyword) && !ErrorFlagged(PropsOf(v.store))
    ensures var typed := Type(v, keyword);
            && typed.store == Reduce(Some(v.store), RequestGetArtists(keyword))
            && typed.store.artistName == Some(keyword)
            && (typed.loading <==> !(v.store.artistsData.UndefinedData? && v.store.artistsError.Some?))
            && (typed.loading ==>
                  && Render(PropsOf(typed.store), typed.loading).list.Some?
                  && Render(PropsOf(typed.store), typed.loading).list.value.skeleton
                  && Render(PropsOf(typed.store), typed.loading).error.None?)
  {
  }

  /**
    A search answered with hits: loading ends, nothing is cleared, the list
    card shows the name, the count and exactly those hits, and no error card,
    whatever error was stored before.
   */
  lemma SearchShowsHits(v: ViewState, keyword: string, count: int, hits: seq<Hit>, m: Field<string>)
    requires !IsEmpty(keyword)
    requires |hits| > 0 && count != 0
    ensures var after := Search(v, keyword, Response(true, Object(Some(count), Some(hits), m)));
            && !after.loading
            && after.store.artistName == Some(keyword)
            && after.store.artistsError == v.store.artistsError
            && Render(PropsOf(after.store), after.loading)
               == Screen(Some(ListCard(false, Some(keyword), Some(count), hits)), None)
  {
  }

  /** A search answered with an empty list, with no earlier error: the neutral "no results" card. */
  lemma EmptyAnswerShowsNoResults(v: ViewState, keyword: string, count: Option<int>, m: Field<string>)
    requires !IsEmpty(keyword) && v.store.artistsError.None?
    ensures var after := Search(v, keyword, Response(true, Object(count, Some([]), m)));
            && !after.loading
            && Render(PropsOf(after.store), after.loading) == Screen(None, Some(ErrorCard(NoResultsFound, false)))
  {
  }

  /**
    A failed search: loading ends and the alert card shows the payload's
    message, or the generic one when it has none, replacing any earlier error.
   */
  lemma FailedSearchShowsAlert(v: ViewState, keyword: string, data: Data)
    requires !IsEmpty(keyword)
    requires !data.Object? || data.message.Missing? || (data.message.Present? && data.message.value != "")
    ensures var after := Search(v, keyword, Response(false, data));
            && !after.loading
            && after.store.artistsData == NullData
            && Render(PropsOf(after.store), after.loading)
               == Screen(None, Some(ErrorCard(MessageOr(data, DefaultError).value, true)))
  {
  }

  /**
    A failure whose payload has a `null` or empty message is stored as such,
    and then neither card is shown.
   */
  lemma SilentFailure(v: ViewState, keyword: string, count: Option<int>, results: Option<seq<Hit>>, m: Field<string>)
    requires !IsEmpty(keyword)
    requires m.Null? || m == Present("")
    ensures var after := Search(v, keyword, Response(false, Object(count, results, m)));
            && after.store.artistsError == Some(ErrorObj(if m.Null? then None else Some("")))
            && Render(PropsOf(after.store), after.loading) == Screen(None, None)
  {
  }

  /**
    Success does not clear an earlier error: a later search answered with an
    empty list still shows the earlier error, and typing never starts loading.
   */
  lemma StaleErrorOutlivesSuccess(v: ViewState, keyword: string, earlier: string, m: Field<string>)
    requires !IsEmpty(keyword) && earlier != ""
    requires v.store.artistsError == Some(ErrorObj(Some(earlier))) && !v.loading
    ensures var typed := Type(v, keyword);
            var after := Search(v, keyword, Response(true, Object(None, Some([]), m)));
            && !typed.loading
            && after.store.artistsError == Some(ErrorObj(Some(earlier)))
            && Render(PropsOf(after.store), after.loading) == Screen(None, Some(ErrorCard(earlier, true)))
  {
  }

  /**
    The store-update effect re-runs only when its dependencies change: an ok
    reply of `null` onto a `null` payload changes neither, so a load started
    by typing never ends and the skeleton stays.
   */
  lemma NullReplyKeepsSkeleton(v: ViewState, keyword: string)
    requires !IsEmpty(keyword) && !ErrorFlagged(PropsOf(v.store))
    requires v.store.artistsData == NullData
    ensures var after := Search(v, keyword, Response(true, NullData));
            && after.loading
            && after.store == Reduce(Some(v.store), RequestGetArtists(keyword))
            && Render(PropsOf(after.store), after.loading).list == Some(ListCard(true, Some(keyword), None, []))
            && Render(PropsOf(after.store), after.loading).error.None?
  {
  }

  /**
    A clear does not cancel the pending lookup, so its ok reply with a results
    list reaches a slice with no name. If the view was still loading, the
    store-update effect then ends the load and dispatches a second clear, and
    the slice is back to its initial state; otherwise the reply stays. The
    render after the first clear runs the effect at most on the initial state,
    which is not loaded, so it does nothing.
   */
  lemma LateReplyIsClearedAgain(v: ViewState, keyword: string, count: Option<int>, hits: seq<Hit>, m: Field<string>)
    requires !IsEmpty(keyword)
    ensures var typed := Type(v, keyword);
            var cleared := Apply(typed, HandleOnChange("", PropsOf(typed.store), typed.loading));
            var reply := SuccessGetArtists(Object(count, Some(hits), m));
            var replied := Reduce(Some(cleared.store), reply);
            var after := Rerender(cleared.store, replied, reply, cleared.loading);
            && cleared == ViewState(InitialState, typed.loading)
            && !Loaded(PropsOf(InitialState))
            && replied.artistName.None? && replied.artistsData == reply.data
            && (typed.loading ==> StoreUpdateEffect(PropsOf(replied), true) == Effect([ClearArtists], false))
            && (typed.loading ==> after == ViewState(InitialState, false))
            && (!typed.loading ==> after == ViewState(replied, false))
  {
    var typed := Type(v, keyword);
    ApplyShort(typed, HandleOnChange("", PropsOf(typed.store), typed.loading));
  }

  /** Emptying the search box clears the slice at once, leaves `loading` alone and starts no lookup. */
  lemma ClearingTheBox(v: ViewState)
    ensures var e := HandleOnChange("", PropsOf(v.store), v.loading);
            && (forall i | 0 <= i < |e.dispatched| :: !e.dispatched[i].RequestGetArtists?)
            && Apply(v, e) == ViewState(InitialState, v.loading)
  {
    ApplyShort(v, HandleOnChange("", PropsOf(v.store), v.loading));
  }
}

=== FILE: js.dfy ===
/**
  Just enough of JavaScript's values, truthiness and lodash's `get`/`isEmpty`
  to say what the artist-search container reads out of its payloads.
 */
module Js {

  /** `null` (None) or a value. */
  datatype Option<+T> = None | Some(value: T)

  /** A property read off an object: absent (`undefined`), an explicit `null`, or a value. */
  datatype Field<+T> = Missing | Null | Present(value: T)

  /** One search hit as the lookup service returns it. */
  datatype Hit = Hit(artistName: string, trackName: string, primaryGenreName: string)

  /**
    A lookup payload (`response.data`), which is also what the store keeps in
    `artistsData`: the literal `[]` of the initial state, `null`, `undefined`,
    or an object whose `resultCount`, `results` and `message` may be absent.
   */
  datatype Data =
    | EmptyArray
    | NullData
    | UndefinedData
    | Object(resultCount: Option<int>, results: Option<seq<Hit>>, message: Field<string>)

  /** The `{}` a missing prop defaults to. */
  const EmptyObject: Data := Object(None, None, Missing)

  /** `get(d, 'results', dflt)` when the default is itself a list. */
  function ResultsOr(d: Data, dflt: seq<Hit>): seq<Hit>
  {
    if d.Object? && d.results.Some? then d.results.value else dflt
  }

  /** `get(d, 'results', null)`: None stands for the `null` default. */
  function ResultsOrNull(d: Data): Option<seq<Hit>>
  {
    if d.Object? then d.results else None
  }

  /** `get(d, 'resultCount', dflt)`. */
  function ResultCountOr(d: Data, dflt: int): int
  {
    if d.Object? && d.resultCount.Some? then d.resultCount.value else dflt
  }

  /**
    `get(d, 'message', dflt)`: the default replaces only an undefined read,
    so an explicit `null` message survives as None.
   */
  function MessageOr(d: Data, dflt: string): Option<string>
  {
    if d.Object? then
      match d.message
      case Missing => Some(dflt)
      case Null => None
      case Present(m) => Some(m)
    else Some(dflt)
  }

  /** `!d?.results?.length`: no results property, or an empty one. */
  predicate NoResults(d: Data)
  {
    d.Object? ==> d.results.None? || |d.results.value| == 0
  }

  /** Truthiness of a string-or-null: `null` and `""` are falsy. */
  predicate Truthy(s: Option<string>)
  {
    s.Some? && s.value != ""
  }

  /** lodash `isEmpty` on a string: true exactly for `""`. */
  predicate IsEmpty(s: string)
  {
    |s| == 0
  }

  /** The two ways the view asks for "no results" agree: `!d?.results?.length` and `get(d, 'results', []).length === 0`. */
  lemma NoResultsIsNoItems(d: Data)
    ensures NoResults(d) <==> |ResultsOr(d, [])| == 0
  {
  }
}

=== FILE: reducer.dfy ===
/**
  The artist-container store slice: its initial state, its four actions and
  the reducer that applies them.
 */
module Reducer {
  import opened Js

  /** What the slice keeps after a failed lookup: `{ error: message-or-null }`. */
  datatype ErrorObj = ErrorObj(error: Option<string>)

  /** The slice: the last requested name, the last payload, the last error. */
  datatype State = State(artistName: Option<string>, artistsData: Data, artistsError: Option<ErrorObj>)

  /**
    The four action creators; `Other` is any action whose type is none of
    their four types (the reducer has no default case for it).
   */
  datatype Action =
    | RequestGetArtists(artistName: string)
    | SuccessGetArtists(data: Data)
    | FailureGetArtists(error: Data)
    | ClearArtists
    | Other(kind: string)

  const DefaultError: string := "something_went_wrong"

  const InitialState: State := State(None, EmptyArray, None)

  /** An undefined incoming state is replaced by the initial one. */
  function Base(state: Option<State>): State
  {
    if state.Some? then state.value else InitialState
  }

  /** The error object a failure stores: the payload's message, defaulted only when it is undefined. */
  function StoredError(e: Data): (r: ErrorObj)
    ensures r.error.None? <==> e.Object? && e.message.Null?
    ensures e.Object? && e.message.Present? ==> r.error == Some(e.message.value)
    ensures !e.Object? || e.message.Missing? ==> r.error == Some(DefaultError)
  {
    ErrorObj(MessageOr(e, DefaultError))
  }

  /** `artistContainerReducer(state, action)`; None stands for an undefined state. */
  function Reduce(state: Option<State>, action: Action): (r: State)
    // request: only the name changes
    ensures action.RequestGetArtists? ==>
              && r.artistName == Some(action.artistName)
              && r.artistsData == Base(state).artistsData
              && r.artistsError == Base(state).artistsError
    // clear: back to the initial state, whatever came before
    ensures action.ClearArtists? ==> r == InitialState
    // success: only the data changes; a prior error is kept
    ensures action.SuccessGetArtists? ==>
              && r.artistsData == action.data
              && r.artistName == Base(state).artistName
              && r.artistsError == Base(state).artistsError
    // failure: data becomes null, the error is recorded, the name is kept
    ensures action.FailureGetArtists? ==>
              && r.artistsData == NullData
              && r.artistsError == Some(StoredError(action.error))
              && r.artistName == Base(state).artistName
    // no default case: any other action leaves the state as it was
    ensures action.Other? ==> r == Base(state)
  {
    var s := Base(state);
    match action
    case RequestGetArtists(name) => s.(artistName := Some(name))
    case ClearArtists => InitialState
    case SuccessGetArtists(d) => s.(artistsData := d)
    case FailureGetArtists(e) => s.(artistsError := Some(StoredError(e)), artistsData := NullData)
    case Other(_) => s
  }

  /** The initial slice: no name, the empty list, no error. */
  lemma InitialStateFields()
    ensures InitialState.artistName.None?
    ensures InitialState.artistsData == EmptyArray
    ensures InitialState.artistsError.None?
  {
  }

  /** An undefined state behaves exactly like the initial state. */
  lemma UndefinedStateIsInitial(action: Action)
    ensures Reduce(None, action) == Reduce(Some(InitialState), action)
  {
  }

  /** Clearing resets any state, and clearing twice is clearing once. */
  lemma ClearIsIdempotentReset(s: Option<State>)
    ensures Reduce(s, ClearArtists) == InitialState
    ensures Reduce(Some(Reduce(s, ClearArtists)), ClearArtists) == Reduce(s, ClearArtists)
  {
  }

  /** A failure whose payload carries no message stores the generic one. */
  lemma FailureWithoutMessage(s: Option<State>, e: Data)
    requires !e.Object? || e.message.Missing?
    ensures Reduce(s, FailureGetArtists(e)).artistsError == Some(ErrorObj(Some(DefaultError)))
    ensures Reduce(s, FailureGetArtists(e)).artistsData == NullData
  {
  }

  /**
    Request then success: the slice holds the requested name and the payload,
    and the error it had before the request is still there.
   */
  lemma RequestThenSuccess(s: Option<State>, name: string, d: Data)
    ensures var r := Reduce(Some(Reduce(s, RequestGetArtists(name))), SuccessGetArtists(d));
            && r.artistName == Some(name)
            && r.artistsData == d
            && r.artistsError == Base(s).artistsError
  {
  }
}

=== FILE: saga.dfy ===
/**
  The lookup saga: one request action in, one lookup call, one success or
  failure action out; and the take-latest policy that decides which replies
  reach the store.
 */
module Saga {
  import opened Js
  import opened Reducer

  /** What the lookup service answers: a success flag and a payload. */
  datatype Response = Response(ok: bool, data: Data)

  /** The effects of one saga run: the argument of the lookup call and the action it puts. */
  datatype SagaRun = SagaRun(called: string, put: Action)

  /**
    `getArtists(action)`: the lookup service is the parameter `lookup`; the
    saga calls it once with the requested name and puts exactly one action.
   */
  function GetArtists(action: Action, lookup: string -> Response): (r: SagaRun)
    requires action.RequestGetArtists?
    ensures r.called == action.artistName
    ensures r.put.SuccessGetArtists? || r.put.FailureGetArtists?
    ensures r.put.SuccessGetArtists? <==> lookup(action.artistName).ok
    ensures r.put.SuccessGetArtists? ==> r.put.data == lookup(action.artistName).data
    ensures r.put.FailureGetArtists? ==> r.put.error == lookup(action.artistName).data
  {
    var response := lookup(action.artistName);
    if response.ok then SagaRun(action.artistName, SuccessGetArtists(response.data))
    else SagaRun(action.artistName, FailureGetArtists(response.data))
  }

  /** The branch depends only on `ok`: two answers that agree on it put the same kind of action, whatever their payloads. */
  lemma OnlyOkDecides(name: string, l1: string -> Response, l2: string -> Response)
    requires l1(name).ok == l2(name).ok
    ensures GetArtists(RequestGetArtists(name), l1).put.SuccessGetArtists?
            == GetArtists(RequestGetArtists(name), l2).put.SuccessGetArtists?
  {
  }

  /** A request followed by its saga's reply, as the store applies them. */
  function LookupOutcome(s: State, name: string, response: Response): State
  {
    var requested := Reduce(Some(s), RequestGetArtists(name));
    Reduce(Some(requested), GetArtists(RequestGetArtists(name), _ => response).put)
  }

  /** An ok reply stores its payload under the requested name; the prior error stays. */
  lemma OkReplyStoresData(s: State, name: string, response: Response)
    requires response.ok
    ensures LookupOutcome(s, name, response).artistName == Some(name)
    ensures LookupOutcome(s, name, response).artistsData == response.data
    ensures LookupOutcome(s, name, response).artistsError == s.artistsError
  {
  }

  /** A failed reply nulls the data and records the payload's message, or the generic one. */
  lemma FailedReplyStoresError(s: State, name: string, response: Response)
    requires !response.ok
    ensures LookupOutcome(s, name, response).artistName == Some(name)
    ensures LookupOutcome(s, name, response).artistsData == NullData
    ensures LookupOutcome(s, name, response).artistsError == Some(ErrorObj(MessageOr(response.data, DefaultError)))
  {
  }

  /** A started lookup: its id and the name it was called with. */
  datatype Task = Task(id: nat, name: string)

  /**
    The store together with take-latest bookkeeping: the next task id and the
    one task still allowed to deliver its reply.
   */
  datatype Runtime = Runtime(store: State, nextId: nat, running: Option<Task>)

  /** A dispatched action, or the reply of the lookup started by task `id`. */
  datatype Event = Dispatch(action: Action) | Reply(id: nat, response: Response)

  /** Every task id handed out so far is below `nextId`. */
  predicate Valid(rt: Runtime)
  {
    rt.running.Some? ==> rt.running.value.id < rt.nextId
  }

  /** Whether a reply comes from the task take-latest has not cancelled. */
  predicate IsCurrent(rt: Runtime, id: nat)
  {
    rt.running.Some? && rt.running.value.id == id
  }

  /**
    One event under `takeLatest(REQUEST_GET_ARTISTS, getArtists)`: every
    action goes through the reducer; a request also starts a new task and so
    cancels the running one; only the running task's reply is put.
   */
  function Step(rt: Runtime, ev: Event): (r: Runtime)
    ensures Valid(rt) ==> Valid(r)
    // only a request hands out a new id, so ids are never reused
    ensures r.nextId == if ev.Dispatch? && ev.action.RequestGetArtists? then rt.nextId + 1 else rt.nextId
    ensures ev.Dispatch? ==> r.store == Reduce(Some(rt.store), ev.action)
    ensures ev.Dispatch? && ev.action.RequestGetArtists? ==>
              r.running == Some(Task(rt.nextId, ev.action.artistName))
    ensures ev.Dispatch? && !ev.action.RequestGetArtists? ==> r.running == rt.running
    // a reply from a cancelled or finished task changes nothing
    ensures ev.Reply? && !IsCurrent(rt, ev.id) ==> r == rt
    // the current task's reply is put through the reducer and ends the task
    ensures ev.Reply? && IsCurrent(rt, ev.id) ==>
              && r.running.None?
              && r.store == Reduce(Some(rt.store), GetArtists(RequestGetArtists(rt.running.value.name), _ => ev.response).put)
  {
    match ev
    case Dispatch(a) =>
      var store := Reduce(Some(rt.store), a);
      if a.RequestGetArtists? then Runtime(store, rt.nextId + 1, Some(Task(rt.nextId, a.artistName)))
      else rt.(store := store)
    case Reply(id, response) =>
      if IsCurrent(rt, id) then
        var run := GetArtists(RequestGetArtists(rt.running.value.name), _ => response);
        Runtime(Reduce(Some(rt.store), run.put), rt.nextId, None)
      else rt
  }

  /**
    Latest wins: after requests for `first` and then `second`, the reply to
    `first` is discarded (before or after the reply to `second`), and the
    store ends up exactly as if only `second`'s reply had been received.
   */
  lemma LatestWins(rt: Runtime, first: string, second: string, r1: Response, r2: Response)
    ensures var a := Step(rt, Dispatch(RequestGetArtists(first)));
            var b := Step(a, Dispatch(RequestGetArtists(second)));
            var staleFirst := Step(b, Reply(rt.nextId, r1));
            var done := Step(staleFirst, Reply(rt.nextId + 1, r2));
            var staleAfter := Step(done, Reply(rt.nextId, r1));
            && staleFirst == b
            && staleAfter == done
            && done.store == LookupOutcome(Reduce(Some(rt.store), RequestGetArtists(first)), second, r2)
            && done.store.artistName == Some(second)
  {
  }

  /** In a runtime whose ids are all below `nextId`, a reply carrying an id never handed out changes nothing. */
  lemma UnissuedReplyIgnored(rt: Runtime, id: nat, response: Response)
    requires Valid(rt) && id >= rt.nextId
    ensures Step(rt, Reply(id, response)) == rt
  {
  }

  /**
    Take-latest cancels only on a request: a clear leaves the pending lookup
    running, and its late reply fills the freshly cleared slice.
   */
  lemma ClearDoesNotCancel(rt: Runtime, name: string, response: Response)
    requires response.ok
    ensures var requested := Step(rt, Dispatch(RequestGetArtists(name)));
            var cleared := Step(requested, Dispatch(ClearArtists));
            var replied := Step(cleared, Reply(rt.nextId, response));
            && cleared.store == InitialState
            && IsCurrent(cleared, rt.nextId)
            && replied.store.artistName.None?
            && replied.store.artistsData == response.data
  {
  }

  /** The runtime after a sequence of events. */
  function Run(rt: Runtime, events: seq<Event>): Runtime
    decreases |events|
  {
    if events == [] then rt
    else Step(Run(rt, events[..|events| - 1]), events[|events| - 1])
  }

  /**
    A task that has been handed out and is no longer current stays cancelled
    whatever happens next, so its reply, whenever it arrives, changes nothing.
   */
  lemma {:induction false} CancelledStaysCancelled(rt: Runtime, events: seq<Event>, id: nat, response: Response)
    requires Valid(rt) && id < rt.nextId && !IsCurrent(rt, id)
    ensures Valid(Run(rt, events)) && id < Run(rt, events).nextId && !IsCurrent(Run(rt, events), id)
    ensures Step(Run(rt, events), Reply(id, response)) == Run(rt, events)
    decreases |events|
  {
    if events != [] {
      CancelledStaysCancelled(rt, events[..|events| - 1], id, response);
    }
  }
}

=== FILE: store.dfy ===
/**
  The slice as the store sees it: actions dispatched one after another, each
  applied by the reducer to the state the previous one left. Each field is
  determined by the last action that writes it.
 */
module Store {
  import opened Js
  import opened Reducer

  /** Actions that set `artistName`. */
  predicate WritesName(a: Action)
  {
    a.RequestGetArtists? || a.ClearArtists?
  }

  /** Actions that set `artistsData`. */
  predicate WritesData(a: Action)
  {
    a.SuccessGetArtists? || a.FailureGetArtists? || a.ClearArtists?
  }

  /** Actions that set `artistsError`. */
  predicate WritesError(a: Action)
  {
    a.FailureGetArtists? || a.ClearArtists?
  }

  /** The name a name-writing action leaves behind. */
  function NameWrittenBy(a: Action): Option<string>
    requires WritesName(a)
  {
    if a.RequestGetArtists? then Some(a.artistName) else None
  }

  /** The payload a data-writing action leaves behind. */
  function DataWrittenBy(a: Action): Data
    requires WritesData(a)
  {
    match a
    case SuccessGetArtists(d) => d
    case FailureGetArtists(_) => NullData
    case ClearArtists => EmptyArray
  }

  /** The error an error-writing action leaves behind. */
  function ErrorWrittenBy(a: Action): Option<ErrorObj>
    requires WritesError(a)
  {
    if a.FailureGetArtists? then Some(StoredError(a.error)) else None
  }

  /** The state after dispatching `actions` in order, starting from `s`. */
  function DispatchAll(s: State, actions: seq<Action>): (r: State)
    ensures (forall i | 0 <= i < |actions| :: !WritesName(actions[i])) ==> r.artistName == s.artistName
    ensures (forall i | 0 <= i < |actions| :: !WritesData(actions[i])) ==> r.artistsData == s.artistsData
    ensures (forall i | 0 <= i < |actions| :: !WritesError(actions[i])) ==> r.artistsError == s.artistsError
    decreases |actions|
  {
    if actions == [] then s
    else Reduce(Some(DispatchAll(s, actions[..|actions| - 1])), actions[|actions| - 1])
  }

  /** Dispatching two batches in turn is dispatching their concatenation. */
  lemma {:induction false} DispatchAppend(s: State, xs: seq<Action>, ys: seq<Action>)
    ensures DispatchAll(s, xs + ys) == DispatchAll(DispatchAll(s, xs), ys)
    decreases |ys|
  {
    if ys == [] {
      assert xs + ys == xs;
    } else {
      var ys' := ys[..|ys| - 1];
      DispatchAppend(s, xs, ys');
      assert (xs + ys)[..|xs + ys| - 1] == xs + ys';
    }
  }

  /** A clear anywhere in the history makes everything before it irrelevant. */
  lemma {:induction false} ClearDiscardsHistory(s: State, xs: seq<Action>, ys: seq<Action>)
    ensures DispatchAll(s, xs + [ClearArtists] + ys) == DispatchAll(InitialState, ys)
  {
    DispatchAppend(s, xs + [ClearArtists], ys);
    assert (xs + [ClearArtists])[..|xs|] == xs;
  }

  /** Splits a history right after position `i` and applies `DispatchAppend`. */
  lemma {:induction false} SplitAfter(s: State, xs: seq<Action>, i: int)
    requires 0 <= i < |xs|
    ensures DispatchAll(s, xs) == DispatchAll(Reduce(Some(DispatchAll(s, xs[..i])), xs[i]), xs[i + 1..])
  {
    var pre, post := xs[..i + 1], xs[i + 1..];
    assert xs == pre + post;
    DispatchAppend(s, pre, post);
    assert pre[..|pre| - 1] == xs[..i];
  }

  /** `artistName` is whatever the last request or clear left. */
  lemma {:induction false} LastNameWriter(s: State, xs: seq<Action>, i: int)
    requires 0 <= i < |xs| && WritesName(xs[i])
    requires forall j | i < j < |xs| :: !WritesName(xs[j])
    ensures DispatchAll(s, xs).artistName == NameWrittenBy(xs[i])
  {
    SplitAfter(s, xs, i);
    var post := xs[i + 1..];
    forall j | 0 <= j < |post|
      ensures !WritesName(post[j])
    {
      assert post[j] == xs[i + 1 + j];
    }
  }

  /** `artistsData` is whatever the last success, failure or clear left. */
  lemma {:induction false} LastDataWriter(s: State, xs: seq<Action>, i: int)
    requires 0 <= i < |xs| && WritesData(xs[i])
    requires forall j | i < j < |xs| :: !WritesData(xs[j])
    ensures DispatchAll(s, xs).artistsData == DataWrittenBy(xs[i])
  {
    SplitAfter(s, xs, i);
    var post := xs[i + 1..];
    forall j | 0 <= j < |post|
      ensures !WritesData(post[j])
    {
      assert post[j] == xs[i + 1 + j];
    }
  }

  /** `artistsError` is whatever the last failure or clear left: requests and successes never touch it. */
  lemma {:induction false} LastErrorWriter(s: State, xs: seq<Action>, i: int)
    requires 0 <= i < |xs| && WritesError(xs[i])
    requires forall j | i < j < |xs| :: !WritesError(xs[j])
    ensures DispatchAll(s, xs).artistsError == ErrorWrittenBy(xs[i])
  {
    SplitAfter(s, xs, i);
    var post := xs[i + 1..];
    forall j | 0 <= j < |post|
      ensures !WritesError(post[j])
    {
      assert post[j] == xs[i + 1 + j];
    }
  }
}
